=== FILE: README.md ===
# User service of the secondhand backend, modelled in Dafny

This project models the user-management core of the `secondhand` Spring backend:
the `UserService` use cases (list, read by mail, create, update, deactivate,
activate, delete), the immutable `UserInformation` record with three of its
four constructors and its `equals`, the `UserDtoConverter` projection, and the JPA
repository the service sits on, which is modelled as a table.

- `wrappers.dfy`: `Option` (a Java reference that may be null) and `Result` (a value or the exception thrown). It also defines `Exceptions.Error`, the failure kinds.
- `user_information.dfy` (`Model`): the record, with `Option` for the nullable `Long id` and `Boolean isActive`. It holds the three constructors the service uses and `equals`, including the NullPointerException when the receiver's flag is unset.
- `user_dto_converter.dfy` (`Dto`): `UserDto`, `convert`, and its elementwise batch form.
- `user_information_repository.dfy` (`Repository`): the table `Store(rows: map<Id, UserInformation>, nextId)`. `nextId` models the identity column's counter. The module gives the repository operations the service calls, and the invariant `WellFormed`: each row's id is its key, and no two rows share a mail.
- `user_service.dfy` (`Service`): every service operation, as a pure function from the table and the input to `Result<Reply<T>, Error>`. A `Reply` holds the table afterwards and the returned value.
- `user_service_properties.dfy` (`ServiceProperties`): lemmas over well-formed tables. They cover lookups by a stored mail, the exact effect of update and of the flag changes (the exact tables after create and delete are stated by `Service.CreateUser` and `Service.DeleteUser` themselves), idempotence of the flag operations, the create-then-read round trip, and preservation of the table invariant along any sequence of calls.
- `user_service_findings.dfy` (`ServiceFindings`): the update that drops the active flag (see Findings).

Modelling choices:
- The database is not modelled. `save` follows Spring Data JPA with an identity column:
  - a record without an id is inserted under the next counter value;
  - a record whose id names a row replaces that row;
  - a record whose id names no row is merged as a new row.
- The unique index on mail rejects a save that would give two rows the same mail. This is `DuplicateMail`, a store failure the service passes on unchanged.
- `findByMail` over several matching rows fails with `NonUniqueMail`. A well-formed table never has such rows.
- `updateUser` is modelled as written: the replacement comes from the five-argument constructor and has no active flag. The model does not claim that update preserves the flag, although the service test at UserServiceTest.java:140 expects the saved record to keep it.
- `getAllUser` calls `convert` on a list, and `UserDtoConverter` has no such overload. The model follows the stream code commented out beside that call: each row is converted in turn, in the order `findAll` returns. That order is the store's choice, so `FindAll` may list the rows in any order.

## Model

| member | source | states |
|---|---|---|
| Model.WithAllFields | user/src/main/java/com/javaet/secondhand/user/model/UserInformation.java:20-27 | the six-argument constructor sets every field, id and flag included, from its arguments |
| Model.WithoutActive | user/src/main/java/com/javaet/secondhand/user/model/UserInformation.java:29-35 | the five-argument constructor with an id never sets the flag, so the flag is unset |
| Model.WithoutId | user/src/main/java/com/javaet/secondhand/user/model/UserInformation.java:37-43 | the constructor without an id leaves the id unset and sets every other field |
| Model.Equals | user/src/main/java/com/javaet/secondhand/user/model/UserInformation.java:75-81 | equals is true exactly when the other object is a record with the same mail, names and flag while the receiver's flag is set. It throws exactly when mail and names agree and the receiver's flag is unset. A null argument gives false. The id is never compared |
| Model.EqualsIgnoresId | user/src/main/java/com/javaet/secondhand/user/model/UserInformation.java:80 | records that differ only in their ids compare the same way |
| Model.EqualsReflexive | user/src/main/java/com/javaet/secondhand/user/model/UserInformation.java:75-81 | every record with a set flag equals itself |
| Model.EqualsSymmetric | user/src/main/java/com/javaet/secondhand/user/model/UserInformation.java:75-81 | equals is symmetric on records whose flags are both set |
| Model.EqualsAsymmetricOnUnsetFlag | user/src/main/java/com/javaet/secondhand/user/model/UserInformation.java:80 | with one flag unset, symmetry fails: false from one side, an exception from the other |
| Dto.Convert | user/src/main/java/com/javaet/secondhand/user/dto/UserDtoConverter.java:10-12 | convert is defined for every record and never fails. The DTO's mail and three names are the record's |
| Dto.ConvertEqualIff | user/src/main/java/com/javaet/secondhand/user/dto/UserDtoConverter.java:10-12 | two records convert to the same DTO if and only if they agree on mail and the three names |
| Dto.ConvertDropsIdAndActive | user/src/main/java/com/javaet/secondhand/user/dto/UserDtoConverter.java:10-12 | changing a record's id or flag never changes its DTO |
| Dto.ConvertAll | src/test/java/com/javaet/secondhand/TestSupport.java:28-31 | batch conversion keeps length and order: the i-th DTO is the conversion of the i-th record |
| Repository.FindById | user/src/main/java/com/javaet/secondhand/user/service/UserService.java:107-108 | findById finds a row exactly when one exists under the id, and then returns that row |
| Repository.ExistsById | user/src/main/java/com/javaet/secondhand/user/service/UserService.java:99-101 | existsById, the whole of doesUserExist, holds exactly when findById finds a row under the id |
| Repository.FindByMail | user/src/main/java/com/javaet/secondhand/user/repository/UserInformationRepository.java:12 | findByMail finds nothing exactly when no row has the mail. A found record is a row with that mail. It fails (NonUniqueMail) exactly when two distinct rows have the queried mail, so it never fails when mails are unique. When exactly one row has the mail, that row is returned |
| Repository.Save | user/src/main/java/com/javaet/secondhand/user/model/UserInformation.java:9-14 | save fails with DuplicateMail exactly when another row has the mail. An existing id replaces its row. No id or an unknown id inserts under the counter and advances it. Other rows are unchanged, and well-formedness is kept |
| Repository.DeleteById | user/src/main/java/com/javaet/secondhand/user/service/UserService.java:91 | deleteById removes exactly that key. Other rows and the counter are unchanged, and well-formedness is kept |
| Repository.FindAll | user/src/main/java/com/javaet/secondhand/user/service/UserService.java:39 | findAll lists every row exactly once, as many rows as the table holds, each under a distinct key |
| Repository.EmptyWellFormed | user/src/main/java/com/javaet/secondhand/user/model/UserInformation.java:9-14 | the empty table with the counter at 1 satisfies the table invariant |
| Service.FindUserByMail | user/src/main/java/com/javaet/secondhand/user/service/UserService.java:103-105 | NotFound exactly when no row has the mail. It fails with NonUniqueMail exactly when two distinct rows share the mail, as the query would throw. Otherwise the result is the stored row with that mail. Under unique mails the only outcomes are a row or NotFound |
| Service.FindUserById | user/src/main/java/com/javaet/secondhand/user/service/UserService.java:107-109 | NotFound exactly when no row is under the id. Otherwise the result is that row |
| Service.GetAllUser | user/src/main/java/com/javaet/secondhand/user/service/UserService.java:34-40 | the result is the conversion, element by element, of a listing of the table's keys that names every key exactly once, so there is one DTO per stored row. Each DTO converts a stored row, and every stored row's conversion is present |
| Service.GetUserByMail | user/src/main/java/com/javaet/secondhand/user/service/UserService.java:49-52 | NotFound exactly when no row has the mail. On success the table is unchanged and the result converts a stored row with that mail. It fails with NonUniqueMail exactly when two distinct rows share the mail |
| Service.CreateUser | user/src/main/java/com/javaet/secondhand/user/service/UserService.java:61-66 | on a well-formed table the call fails (DuplicateMail) exactly when the mail is taken. Otherwise it adds exactly one row under the counter: request's mail and names, flag true, id the new key. The counter advances by one and every other row is unchanged. It returns the request's fields as a DTO |
| Service.UpdateUser | user/src/main/java/com/javaet/secondhand/user/service/UserService.java:68-79 | NotFound exactly when no row has the mail. On a well-formed table, for the row with the mail: an unset flag throws (NullActive) and a false flag gives NotActive, with nothing saved. A true flag replaces the row under the same key by one with the same id and mail, the request's names and an unset flag, and returns the mail and new names. Success needs a stored row with that mail and flag true. Well-formedness is kept |
| Service.ChangeActivateUser | user/src/main/java/com/javaet/secondhand/user/service/UserService.java:111-122 | NotFound exactly when no row is under the id. On a well-formed table an existing row is replaced by a copy whose flag is the requested value, and nothing else changes. Well-formedness is kept |
| Service.DeactivateUser | user/src/main/java/com/javaet/secondhand/user/service/UserService.java:81-83 | NotFound exactly when no row is under the id. On a well-formed table the row afterwards differs from the old one only in its flag, which is false. Other rows and the counter are unchanged |
| Service.ActiveUser | user/src/main/java/com/javaet/secondhand/user/service/UserService.java:85-87 | NotFound exactly when no row is under the id. On a well-formed table the row afterwards differs from the old one only in its flag, which is true. Other rows and the counter are unchanged |
| Service.DeleteUser | user/src/main/java/com/javaet/secondhand/user/service/UserService.java:89-101 | the call fails with NotFound exactly when the id is absent. Otherwise it removes exactly that key and leaves the other rows and the counter unchanged |
| ServiceProperties.MailNamesOneKey | user/src/main/java/com/javaet/secondhand/user/model/UserInformation.java:13 | in a well-formed table two rows with the same mail are the same row |
| ServiceProperties.FindUserByMailFinds | user/src/main/java/com/javaet/secondhand/user/service/UserService.java:103-105 | in a well-formed table the lookup by a stored row's mail returns exactly that row |
| ServiceProperties.GetUserByMailFinds | user/src/main/java/com/javaet/secondhand/user/service/UserService.java:49-52 | reading a stored row by its mail returns that row's conversion and leaves the table unchanged |
| ServiceProperties.UpdateUserOutcome | user/src/main/java/com/javaet/secondhand/user/service/UserService.java:68-79 | an unset flag throws and a false flag gives NotActive, with nothing saved. A true flag replaces the row under the same key with one that has the same id and mail, the request's names and an unset flag. Nothing else changes |
| ServiceProperties.ChangeActivateUserOutcome | user/src/main/java/com/javaet/secondhand/user/service/UserService.java:111-122 | on an existing id the row afterwards differs from the old one only in its flag, which is the requested value. Nothing else changes |
| ServiceProperties.ChangeActivateUserIdempotent | user/src/main/java/com/javaet/secondhand/user/service/UserService.java:111-122 | setting a flag to the same value twice leaves the same table as once |
| ServiceProperties.DeactivateUserIdempotent | user/src/main/java/com/javaet/secondhand/user/service/UserService.java:81-83 | deactivating twice gives the same outcome as deactivating once |
| ServiceProperties.ActiveUserIdempotent | user/src/main/java/com/javaet/secondhand/user/service/UserService.java:85-87 | activating twice gives the same outcome as activating once |
| ServiceProperties.DeactivateThenActivateRestores | user/src/main/java/com/javaet/secondhand/user/service/UserService.java:81-87 | deactivating and then activating a user that was active restores the table exactly |
| ServiceProperties.CreateThenGetUserByMail | user/src/main/java/com/javaet/secondhand/user/service/UserService.java:49-66 | after a successful create, reading by the request's mail returns the request's fields |
| ServiceProperties.DeleteThenNotFound | user/src/main/java/com/javaet/secondhand/user/service/UserService.java:89-105 | after deleting an existing id, deleting it again and reading the deleted row's mail both fail with NotFound |
| ServiceProperties.ApplyPreservesWellFormed | user/src/main/java/com/javaet/secondhand/user/model/UserInformation.java:9-14 | every state-changing service call keeps ids equal to keys and mails unique |
| ServiceProperties.RunPreservesWellFormed | user/src/main/java/com/javaet/secondhand/user/model/UserInformation.java:9-14 | any sequence of service calls keeps the table well-formed |
| ServiceProperties.ReachableWellFormed | user/src/main/java/com/javaet/secondhand/user/model/UserInformation.java:13 | every table the service can reach from an empty one has unique mails |
| ServiceFindings.UpdateUserTwiceFails | user/src/main/java/com/javaet/secondhand/user/service/UserService.java:68-79 | as written, a second update of a successfully updated user throws on the unset flag |
| ServiceFindings.UpdateUserTwiceFailsExample | user/src/main/java/com/javaet/secondhand/user/service/UserService.java:68-79 | concrete input: create a@x.com, update it, update it again; the second update throws |
| ServiceFindings.UpdateUserKeepingActive | user/src/main/java/com/javaet/secondhand/user/service/UserService.java:68-79 | corrected update: NotFound exactly when no row has the mail. The reply carries the mail and new names, and well-formedness is kept |
| ServiceFindings.UpdateUserKeepingActiveOutcome | src/test/java/com/javaet/secondhand/user/service/UserServiceTest.java:136-155 | corrected update on an active row changes only the three names and keeps the id, mail and flag |
| ServiceFindings.UpdateUserKeepingActiveTwiceSucceeds | user/src/main/java/com/javaet/secondhand/user/service/UserService.java:68-79 | with the correction, a second update of the same user succeeds |

## Left out

- The HTTP controller, Spring wiring, logging and exception messages: only the kind of each failure is modelled.
- The no-argument constructor (`UserInformation.java:45-47`): it exists for JPA and leaves every field null. Strings are never null in this model.
- `hashCode` (`UserInformation.java:86-89`): it hashes the id while `equals` ignores it, so equal records can hash differently. Java's string hashing is not modelled, so this is noted here and not proved.
- Model.Equals: does not model the `this == o` shortcut. Values have no reference identity, so a record with an unset flag compared with the same object is modelled as throwing. An argument of another class is modelled like null.
- Java null ids: the id parameters of `deactivateUser`, `activeUser` and `deleteUser` are never null here. Neither are the request strings.
- Mail comparison: the model compares mails as exact strings. The database compares them under the mail column's collation, which for MySQL is usually case-insensitive. So for a mail that differs from a stored one only in letter case, the program reports DuplicateMail on create and finds the stored row on read. The model instead treats it as a different mail, and the exactly-when statements about mails hold only under exact comparison.
- Id generation: the identity column is modelled as a counter that is never rewound. The actual values MySQL chooses are not modelled.
- Concurrency between requests: each call is one atomic step on the table.
- The request and DTO classes (`CreateUserRequest`, `UpdateUserRequest`, `UserDto`) are not part of this model. Their fields are taken as plain strings, and no default is given for a missing middle name.
- `UserRepository`, `User.kt` and `BaseEntity.kt`: the service does not use them.

## Findings

| source | as written | input that shows it | evidently intended | confidence | as-written member | corrected member |
|---|---|---|---|---|---|---|
| user/src/main/java/com/javaet/secondhand/user/service/UserService.java:75-76 | the update builds the replacement with the five-argument constructor, so the saved row has no active flag and the next update's `getActive()` unboxing throws | create a@x.com, update it, update it again: the second update throws NullPointerException | the replacement keeps the old flag; the service test at UserServiceTest.java:140 saves a record with the flag true | high; not executed | ServiceFindings.UpdateUserTwiceFails | ServiceFindings.UpdateUserKeepingActiveTwiceSucceeds |

The service module keeps the update as written, so every other property is about the code as it stands. The corrected update stands beside it with its own contract, which includes keeping the table well-formed.

=== FILE: user_dto_converter.dfy ===
/** The external representation of a user and the projection onto it (`UserDtoConverter`). */
module Dto {
  import opened Wrappers
  import opened Model

  /** What callers see of a user: never the id, never the active flag. */
  datatype UserDto = UserDto(mail: string, firstName: string, lastName: string, middleName: string)

  /** `convert(UserInformation)`: total, and it passes the mail and the three names through. */
  function Convert(from: UserInformation): (dto: UserDto)
    ensures dto.mail == from.mail
    ensures dto.firstName == from.firstName && dto.lastName == from.lastName
    ensures dto.middleName == from.middleName
  {
    UserDto(from.mail, from.firstName, from.lastName, from.middleName)
  }

  /** Two records convert to the same representation exactly when they agree on mail and names. */
  lemma ConvertEqualIff(a: UserInformation, b: UserInformation)
    ensures Convert(a) == Convert(b) <==> SameMailAndNames(a, b)
  {
  }

  /** The id and the flag are dropped: changing them never changes the representation. */
  lemma ConvertDropsIdAndActive(a: UserInformation, id: Option<Id>, active: Option<bool>)
    ensures Convert(a.(id := id, active := active)) == Convert(a)
  {
  }

  /** The batch form: one representation per record, in the same order. */
  function ConvertAll(rows: seq<UserInformation>): (dtos: seq<UserDto>)
    ensures |dtos| == |rows|
    ensures forall i :: 0 <= i < |rows| ==> dtos[i] == Convert(rows[i])
  {
    if rows == [] then []
    else [Convert(rows[0])] + ConvertAll(rows[1..])
  }
}

=== FILE: user_information.dfy ===
/** The persisted user record (`UserInformation`) and its value semantics. */
module Model {
  import opened Wrappers
  import opened Exceptions

  /** Surrogate key assigned by the store. */
  type Id = int

  /**
   * A user record. The Java class has no setters, so a record never changes
   * after construction; the datatype's destructors are its getters.
   * `id` and `active` are nullable in Java (`Long`, `Boolean`) and are
   * Options here; the strings are never null on any path the service takes.
   */
  datatype UserInformation = UserInformation(
    id: Option<Id>,
    mail: string,
    firstName: string,
    lastName: string,
    middleName: string,
    active: Option<bool>)

  /** The six-argument constructor: every field is taken from its argument. */
  function WithAllFields(id: Option<Id>, mail: string, firstName: string, lastName: string,
                         middleName: string, isActive: Option<bool>): (r: UserInformation)
    ensures r.id == id && r.mail == mail && r.active == isActive
    ensures r.firstName == firstName && r.lastName == lastName && r.middleName == middleName
  {
    UserInformation(id, mail, firstName, lastName, middleName, isActive)
  }

  /** The five-argument constructor with an id: `isActive` is never assigned, so it stays null. */
  function WithoutActive(id: Option<Id>, mail: string, firstName: string, lastName: string,
                         middleName: string): (r: UserInformation)
    ensures r.id == id && r.mail == mail && r.active.None?
    ensures r.firstName == firstName && r.lastName == lastName && r.middleName == middleName
  {
    UserInformation(id, mail, firstName, lastName, middleName, None)
  }

  /** The five-argument constructor without an id: the id stays null until the store assigns one. */
  function WithoutId(mail: string, firstName: string, lastName: string,
                     middleName: string, isActive: Option<bool>): (r: UserInformation)
    ensures r.id.None? && r.mail == mail && r.active == isActive
    ensures r.firstName == firstName && r.lastName == lastName && r.middleName == middleName
  {
    UserInformation(None, mail, firstName, lastName, middleName, isActive)
  }

  /** The fields `equals` compares, apart from the active flag. */
  predicate SameMailAndNames(a: UserInformation, b: UserInformation)
  {
    a.mail == b.mail && a.firstName == b.firstName && a.lastName == b.lastName
    && a.middleName == b.middleName
  }

  /**
   * `a.equals(o)`. `o == None` is a null argument (or an object of another
   * class): the answer is false. The strings are compared first, left to
   * right; only when all four agree is `a`'s flag unboxed, which throws when
   * it is unset. `Boolean.equals(null)` is false. The id is never compared.
   */
  function Equals(a: UserInformation, o: Option<UserInformation>): (r: Result<bool, Error>)
    ensures r == Success(true) <==> o.Some? && SameMailAndNames(a, o.value) && a.active.Some? && a.active == o.value.active
    ensures r.Failure? <==> o.Some? && SameMailAndNames(a, o.value) && a.active.None?
    ensures r.Failure? ==> r.error == NullActive
  {
    match o
    case None => Success(false)
    case Some(b) =>
      if a.mail != b.mail || a.firstName != b.firstName || a.lastName != b.lastName
         || a.middleName != b.middleName then
        Success(false)
      else if a.active.None? then
        Failure(NullActive)
      else
        Success(b.active.Some? && a.active.value == b.active.value)
  }

  /** Two records that differ only in their ids are equal or unequal together. */
  lemma EqualsIgnoresId(a: UserInformation, b: UserInformation, idA: Option<Id>, idB: Option<Id>)
    ensures Equals(a.(id := idA), Some(b.(id := idB))) == Equals(a, Some(b))
  {
  }

  /** `equals` is reflexive on every record whose flag is set, whatever its id. */
  lemma EqualsReflexive(a: UserInformation)
    requires a.active.Some?
    ensures Equals(a, Some(a)) == Success(true)
  {
  }

  /** `equals` is symmetric on records whose flags are both set. */
  lemma EqualsSymmetric(a: UserInformation, b: UserInformation)
    requires a.active.Some? && b.active.Some?
    ensures Equals(a, Some(b)) == Equals(b, Some(a))
  {
  }

  /**
   * Without a set flag on both sides symmetry fails: a record with an unset
   * flag compares false from one side and throws from the other.
   */
  lemma EqualsAsymmetricOnUnsetFlag(a: UserInformation, b: UserInformation)
    requires SameMailAndNames(a, b) && a.active.Some? && b.active.None?
    ensures Equals(a, Some(b)) == Success(false)
    ensures Equals(b, Some(a)) == Failure(NullActive)
  {
  }
}

=== FILE: user_information_repository.dfy ===
/**
 * The repository (`UserInformationRepository`, a JPA repository): a table of
 * records keyed by id, with a unique index on mail and an identity column.
 */
module Repository {
  import opened Wrappers
  import opened Exceptions
  import opened Model

  /**
   * The table. `nextId` is the identity column's counter: the database hands
   * it to the next inserted row and never hands it out again.
   */
  datatype Store = Store(rows: map<Id, UserInformation>, nextId: Id)

  /** An empty table whose identity column starts at 1. */
  const Empty := Store(map[], 1)

  /** No two rows share a mail (`@Column(unique = true)`). */
  ghost predicate MailsUnique(rows: map<Id, UserInformation>)
  {
    forall k1, k2 :: k1 in rows && k2 in rows && rows[k1].mail == rows[k2].mail ==> k1 == k2
  }

  /**
   * The invariant the database maintains: every row carries its own key as
   * its id, every key was handed out by the counter, and mails are unique.
   */
  ghost predicate WellFormed(s: Store)
  {
    && (forall k :: k in s.rows ==> s.rows[k].id == Some(k) && k < s.nextId)
    && MailsUnique(s.rows)
  }

  /** Every row other than the one under `key` is present and unchanged in `after`. */
  ghost predicate OthersUnchanged(before: map<Id, UserInformation>, after: map<Id, UserInformation>, key: Id)
  {
    forall k :: k in before && k != key ==> k in after && after[k] == before[k]
  }

  lemma EmptyWellFormed()
    ensures WellFormed(Empty)
  {
  }

  /** A set with no element is empty. */
  lemma NoElementIsEmpty(xs: set<Id>)
    requires forall x :: x !in xs
    ensures xs == {}
  {
    assert forall x :: x in xs <==> x in {};
  }

  /** A non-empty set has an element. */
  lemma NonEmptyHasElement(xs: set<Id>)
    requires xs != {}
    ensures exists x :: x in xs
  {
    if forall x :: x !in xs {
      NoElementIsEmpty(xs);
      assert false;
    }
  }

  /** A set whose elements are all equal has at most one element. */
  lemma AtMostOne(xs: set<Id>)
    requires forall a, b :: a in xs && b in xs ==> a == b
    ensures |xs| <= 1
  {
    if xs != {} {
      NonEmptyHasElement(xs);
      var x :| x in xs;
      assert forall y :: y in xs <==> y in {x};
      assert xs == {x};
    }
  }

  /** A set of size one has all its elements equal. */
  lemma SizeOneIsSingleton(xs: set<Id>)
    requires |xs| == 1
    ensures forall a, b :: a in xs && b in xs ==> a == b
  {
    assert xs != {};
    NonEmptyHasElement(xs);
    var x :| x in xs;
    var rest := xs - {x};
    assert |rest| == 0;
    if rest != {} {
      NonEmptyHasElement(rest);
      assert false;
    }
    assert forall y :: y in xs ==> y in rest || y == x;
  }

  /** Under unique mails a query by mail matches at most one row. */
  lemma UniqueMailMatchesAtMostOne(rows: map<Id, UserInformation>, mail: string)
    ensures MailsUnique(rows) ==> |set k | k in rows && rows[k].mail == mail| <= 1
  {
    var matches := set k | k in rows && rows[k].mail == mail;
    if MailsUnique(rows) {
      forall a, b | a in matches && b in matches
        ensures a == b
      {
        assert rows[a].mail == rows[b].mail;
      }
      AtMostOne(matches);
    }
  }

  /** `findById`: the row under that key, if any. */
  function FindById(s: Store, id: Id): (r: Option<UserInformation>)
    ensures r.Some? <==> id in s.rows
    ensures r.Some? ==> r.value == s.rows[id]
  {
    if id in s.rows then Some(s.rows[id]) else None
  }

  /** `existsById`: it holds exactly when `findById` would find a row. */
  function ExistsById(s: Store, id: Id): (r: bool)
    ensures r <==> FindById(s, id).Some?
  {
    id in s.rows
  }

  /** Two distinct rows have this mail. */
  ghost predicate MailShared(rows: map<Id, UserInformation>, mail: string)
  {
    exists k1, k2 :: k1 in rows && k2 in rows && k1 != k2 && rows[k1].mail == mail && rows[k2].mail == mail
  }

  /**
   * `findByMail`: the one row with that mail, none, or a failure when the
   * query matches several rows (which a well-formed store rules out).
   */
  function FindByMail(s: Store, mail: string): (r: Result<Option<UserInformation>, Error>)
    ensures r == Success(None) <==> forall k :: k in s.rows ==> s.rows[k].mail != mail
    ensures r.Success? && r.value.Some? ==>
      exists k :: k in s.rows && s.rows[k] == r.value.value && s.rows[k].mail == mail
    ensures r.Failure? <==> MailShared(s.rows, mail)
    ensures r.Failure? ==> r.error == NonUniqueMail
    ensures MailsUnique(s.rows) ==> r.Success?
  {
    var matches := set k | k in s.rows && s.rows[k].mail == mail;
    if matches == {} then
      assert forall k :: k in s.rows ==> k !in matches;
      Success(None)
    else
      NonEmptyHasElement(matches);
      if |matches| == 1 then
        SizeOneIsSingleton(matches);
        assert forall j :: j in s.rows && s.rows[j].mail == mail ==> j in matches;
        var k :| k in matches;
        Success(Some(s.rows[k]))
      else
        UniqueMailMatchesAtMostOne(s.rows, mail);
        var k :| k in matches;
        assert |matches - {k}| == |matches| - 1;
        NonEmptyHasElement(matches - {k});
        Failure(NonUniqueMail)
  }

  /** The key a save writes to: the record's own id when that row exists, the counter otherwise. */
  function SaveKey(s: Store, rec: UserInformation): Id
  {
    if rec.id.Some? && rec.id.value in s.rows then rec.id.value else s.nextId
  }

  /**
   * `save`, an upsert. A record with no id is inserted under a fresh id; a
   * record whose id names an existing row replaces that row; a record whose
   * id names no row is merged as a new row under a fresh id. The unique
   * index rejects the write when another row already has the mail.
   * The result carries the new table and the record as stored.
   */
  function Save(s: Store, rec: UserInformation): (r: Result<(Store, UserInformation), Error>)
    ensures r.Failure? <==> exists k :: k in s.rows && k != SaveKey(s, rec) && s.rows[k].mail == rec.mail
    ensures r.Failure? ==> r.error == DuplicateMail
    ensures r.Success? && rec.id.Some? && rec.id.value in s.rows ==>
      && r.value.1 == rec
      && r.value.0.rows.Keys == s.rows.Keys
      && r.value.0.rows[rec.id.value] == rec
      && r.value.0.nextId == s.nextId
    ensures r.Success? && !(rec.id.Some? && rec.id.value in s.rows) ==>
      && r.value.1 == rec.(id := Some(s.nextId))
      && r.value.0.rows.Keys == s.rows.Keys + {s.nextId}
      && r.value.0.rows[s.nextId] == r.value.1
      && r.value.0.nextId == s.nextId + 1
    ensures r.Success? ==> OthersUnchanged(s.rows, r.value.0.rows, SaveKey(s, rec))
    ensures r.Success? && WellFormed(s) ==> WellFormed(r.value.0)
  {
    var key := SaveKey(s, rec);
    if exists k :: k in s.rows && k != key && s.rows[k].mail == rec.mail then
      Failure(DuplicateMail)
    else
      var stored := rec.(id := Some(key));
      var next := if rec.id.Some? && rec.id.value in s.rows then s.nextId else s.nextId + 1;
      Success((Store(s.rows[key := stored], next), stored))
  }

  /**
   * In a well-formed table, saving a record that carries the id of an
   * existing row and keeps that row's mail replaces just that row: the
   * unique index cannot object, and the counter does not move.
   */
  lemma SaveReplacesRow(s: Store, rec: UserInformation)
    ensures WellFormed(s) && rec.id.Some? && rec.id.value in s.rows && rec.mail == s.rows[rec.id.value].mail ==>
      Save(s, rec) == Success((Store(s.rows[rec.id.value := rec], s.nextId), rec))
  {
    if WellFormed(s) && rec.id.Some? && rec.id.value in s.rows && rec.mail == s.rows[rec.id.value].mail {
      var k := rec.id.value;
      assert SaveKey(s, rec) == k;
      var r := Save(s, rec);
      assert r.Success?;
      assert r.value.0.rows == s.rows[k := rec];
    }
  }

  /** `deleteById`: removes that one row; the counter is not rewound. */
  function DeleteById(s: Store, id: Id): (r: Store)
    ensures r.rows.Keys == s.rows.Keys - {id}
    ensures OthersUnchanged(s.rows, r.rows, id)
    ensures r.nextId == s.nextId
    ensures WellFormed(s) ==> WellFormed(r)
  {
    Store(s.rows - {id}, s.nextId)
  }

  /** Whether `keys` lists every element of `ks` exactly once. */
  ghost predicate Enumerates(keys: seq<Id>, ks: set<Id>)
  {
    && (forall i, j :: 0 <= i < j < |keys| ==> keys[i] != keys[j])
    && (forall i :: 0 <= i < |keys| ==> keys[i] in ks)
    && (forall k :: k in ks ==> k in keys)
  }

  /**
   * `findAll`: every row once, in an order the store chooses. The keys are
   * returned alongside the rows so that the order can be talked about.
   */
  method FindAll(s: Store) returns (keys: seq<Id>, rows: seq<UserInformation>)
    ensures Enumerates(keys, s.rows.Keys)
    ensures |keys| == |s.rows|
    ensures |rows| == |keys|
    ensures forall i :: 0 <= i < |keys| ==> rows[i] == s.rows[keys[i]]
  {
    keys, rows := [], [];
    var pending := s.rows.Keys;
    while pending != {}
      invariant pending <= s.rows.Keys
      invariant |keys| + |pending| == |s.rows.Keys|
      invariant forall i, j :: 0 <= i < j < |keys| ==> keys[i] != keys[j]
      invariant forall i :: 0 <= i < |keys| ==> keys[i] in s.rows && keys[i] !in pending
      invariant forall k :: k in s.rows && k !in pending ==> k in keys
      invariant |rows| == |keys|
      invariant forall i :: 0 <= i < |keys| ==> rows[i] == s.rows[keys[i]]
      decreases |pending|
    {
      NonEmptyHasElement(pending);
      var k :| k in pending;
      keys, rows := keys + [k], rows + [s.rows[k]];
      pending := pending - {k};
    }
  }
}

=== FILE: user_service.dfy ===
/**
 * The user service (`UserService`): each public operation is a pure function
 * from the current table and its input to either the new table and the
 * operation's result, or the error the Java method throws.
 */
module Service {
  import opened Wrappers
  import opened Exceptions
  import opened Model
  import opened Dto
  import opened Repository

  /** Body of a create request; there is no id and no active flag. */
  datatype CreateUserRequest = CreateUserRequest(mail: string, firstName: string, lastName: string, middleName: string)

  /** Body of an update request; the mail comes from the path. */
  datatype UpdateUserRequest = UpdateUserRequest(firstName: string, lastName: string, middleName: string)

  /** A successful call: the table afterwards and what the call returns. */
  datatype Reply<T> = Reply(store: Store, value: T)

  /** Some row has this mail. */
  ghost predicate HasMail(s: Store, mail: string)
  {
    exists k :: k in s.rows && s.rows[k].mail == mail
  }

  /** `findUserByMail`: the lookup, with absence turned into NotFound. */
  function FindUserByMail(s: Store, mail: string): (r: Result<UserInformation, Error>)
    ensures r.Success? ==> r.value.mail == mail && r.value in s.rows.Values
    ensures r == Failure(NotFound) <==> !HasMail(s, mail)
    ensures r == Failure(NonUniqueMail) <==> MailShared(s.rows, mail)
    ensures MailsUnique(s.rows) ==> r.Success? || r == Failure(NotFound)
  {
    var found :- FindByMail(s, mail);
    if found.None? then Failure(NotFound) else Success(found.value)
  }

  /** `findUserById`: the lookup, with absence turned into NotFound. */
  function FindUserById(s: Store, id: Id): (r: Result<UserInformation, Error>)
    ensures r.Success? <==> id in s.rows
    ensures r.Success? ==> r.value == s.rows[id]
    ensures r.Failure? ==> r.error == NotFound
  {
    var found := FindById(s, id);
    if found.None? then Failure(NotFound) else Success(found.value)
  }

  /**
   * `getAllUser`: the representation of every row, in the store's order.
   * The result is the conversion, element by element, of some listing of the
   * table's keys that names every key exactly once.
   */
  method GetAllUser(s: Store) returns (dtos: seq<UserDto>)
    ensures exists keys :: Enumerates(keys, s.rows.Keys) && |keys| == |dtos|
                           && forall i :: 0 <= i < |dtos| ==> dtos[i] == Convert(s.rows[keys[i]])
    ensures |dtos| == |s.rows|
    ensures forall i :: 0 <= i < |dtos| ==> exists k :: k in s.rows && dtos[i] == Convert(s.rows[k])
    ensures forall k :: k in s.rows ==> Convert(s.rows[k]) in dtos
  {
    var keys, rows := FindAll(s);
    dtos := ConvertAll(rows);
    forall k | k in s.rows
      ensures Convert(s.rows[k]) in dtos
    {
      var i :| 0 <= i < |keys| && keys[i] == k;
      assert dtos[i] == Convert(s.rows[k]);
    }
    assert Enumerates(keys, s.rows.Keys) && |keys| == |dtos|
           && forall i :: 0 <= i < |dtos| ==> dtos[i] == Convert(s.rows[keys[i]]);
  }

  /** `getUserByMail`: the representation of the row with that mail; nothing is written. */
  function GetUserByMail(s: Store, mail: string): (r: Result<Reply<UserDto>, Error>)
    ensures r.Success? ==> r.value.store == s
    ensures r.Success? ==> exists k :: k in s.rows && s.rows[k].mail == mail && r.value.value == Convert(s.rows[k])
    ensures r == Failure(NotFound) <==> !HasMail(s, mail)
    ensures r == Failure(NonUniqueMail) <==> MailShared(s.rows, mail)
    ensures MailsUnique(s.rows) ==> (r.Success? <==> HasMail(s, mail))
  {
    var found :- FindUserByMail(s, mail);
    Success(Reply(s, Convert(found)))
  }

  /**
   * `createUser`: a record with no id, the request's mail and names and the
   * flag set to true is saved; the reply is the representation of the row
   * the store returns. A mail already in the table violates the unique index.
   */
  function CreateUser(s: Store, request: CreateUserRequest): (r: Result<Reply<UserDto>, Error>)
    ensures WellFormed(s) ==> (r.Failure? <==> HasMail(s, request.mail))
    ensures r.Failure? ==> r.error == DuplicateMail
    ensures r.Success? ==>
      && r.value.value == UserDto(request.mail, request.firstName, request.lastName, request.middleName)
      && r.value.store.rows.Keys == s.rows.Keys + {s.nextId}
      && r.value.store.rows[s.nextId] == UserInformation(Some(s.nextId), request.mail,
           request.firstName, request.lastName, request.middleName, Some(true))
      && OthersUnchanged(s.rows, r.value.store.rows, s.nextId)
      && r.value.store.nextId == s.nextId + 1
    ensures r.Success? && WellFormed(s) ==> WellFormed(r.value.store)
  {
    var rec := WithoutId(request.mail, request.firstName, request.lastName, request.middleName, Some(true));
    var saved :- Save(s, rec);
    Success(Reply(saved.0, Convert(saved.1)))
  }

  /**
   * `updateUser`, as written: the row with that mail must exist and its flag
   * is unboxed (throwing when unset); an inactive row is refused. The
   * replacement is built with the five-argument constructor, so it keeps id
   * and mail, takes the names from the request and has NO active flag.
   */
  function UpdateUser(s: Store, mail: string, request: UpdateUserRequest): (r: Result<Reply<UserDto>, Error>)
    ensures r == Failure(NotFound) <==> !HasMail(s, mail)
    ensures r.Success? ==> r.value.value == UserDto(mail, request.firstName, request.lastName, request.middleName)
    ensures r.Success? ==> exists k :: k in s.rows && s.rows[k].mail == mail && s.rows[k].active == Some(true)
    ensures WellFormed(s) ==> forall k :: k in s.rows && s.rows[k].mail == mail ==>
      && (s.rows[k].active.None? ==> r == Failure(NullActive))
      && (s.rows[k].active == Some(false) ==> r == Failure(NotActive))
      && (s.rows[k].active == Some(true) ==> r == Success(Reply(
            Store(s.rows[k := UserInformation(Some(k), mail, request.firstName, request.lastName,
                                              request.middleName, None)], s.nextId),
            UserDto(mail, request.firstName, request.lastName, request.middleName))))
    ensures r.Success? && WellFormed(s) ==> WellFormed(r.value.store)
  {
    var found :- FindUserByMail(s, mail);
    var updated := WithoutActive(found.id, found.mail, request.firstName, request.lastName, request.middleName);
    SaveReplacesRow(s, updated);
    if found.active.None? then
      Failure(NullActive)
    else if !found.active.value then
      Failure(NotActive)
    else
      var saved :- Save(s, updated);
      Success(Reply(saved.0, Convert(saved.1)))
  }

  /**
   * `changeActivateUser`: the row under `id` is replaced by a copy whose
   * flag is `isActive`; every other field is copied over.
   */
  function ChangeActivateUser(s: Store, id: Id, isActive: bool): (r: Result<Reply<()>, Error>)
    ensures r == Failure(NotFound) <==> id !in s.rows
    ensures WellFormed(s) && id in s.rows ==>
      r == Success(Reply(Store(s.rows[id := s.rows[id].(active := Some(isActive))], s.nextId), ()))
    ensures r.Success? && WellFormed(s) ==> WellFormed(r.value.store)
  {
    var found :- FindUserById(s, id);
    var updated := WithAllFields(found.id, found.mail, found.firstName, found.lastName,
                                 found.middleName, Some(isActive));
    SaveReplacesRow(s, updated);
    var saved :- Save(s, updated);
    Success(Reply(saved.0, ()))
  }

  /** `deactivateUser`: the row under `id` keeps every field but its flag, which becomes false. */
  function DeactivateUser(s: Store, id: Id): (r: Result<Reply<()>, Error>)
    ensures r == Failure(NotFound) <==> id !in s.rows
    ensures WellFormed(s) && id in s.rows ==>
      r == Success(Reply(Store(s.rows[id := s.rows[id].(active := Some(false))], s.nextId), ()))
  {
    ChangeActivateUser(s, id, false)
  }

  /** `activeUser`: the row under `id` keeps every field but its flag, which becomes true. */
  function ActiveUser(s: Store, id: Id): (r: Result<Reply<()>, Error>)
    ensures r == Failure(NotFound) <==> id !in s.rows
    ensures WellFormed(s) && id in s.rows ==>
      r == Success(Reply(Store(s.rows[id := s.rows[id].(active := Some(true))], s.nextId), ()))
  {
    ChangeActivateUser(s, id, true)
  }

  /** `deleteUser`: the existence check comes first; only an existing row is removed. */
  function DeleteUser(s: Store, id: Id): (r: Result<Reply<()>, Error>)
    ensures r.Failure? <==> id !in s.rows
    ensures r.Failure? ==> r.error == NotFound
    ensures r.Success? ==>
      && r.value.store.rows.Keys == s.rows.Keys - {id}
      && OthersUnchanged(s.rows, r.value.store.rows, id)
      && r.value.store.nextId == s.nextId
    ensures r.Success? && WellFormed(s) ==> WellFormed(r.value.store)
  {
    if ExistsById(s, id) then Success(Reply(DeleteById(s, id), ()))
    else Failure(NotFound)
  }
}

=== FILE: user_service_findings.dfy ===
/**
 * `updateUser` rebuilds the row with the five-argument constructor, which
 * never assigns `isActive`; the saved row therefore has no flag, and the
 * next update of the same user throws when it unboxes that flag. The
 * service's own test expects the flag to be carried over. This module shows
 * the discrepancy on the code as written and proves the intended behaviour
 * of a corrected update that passes the old flag to the six-argument
 * constructor.
 */
module ServiceFindings {
  import opened Wrappers
  import opened Exceptions
  import opened Model
  import opened Dto
  import opened Repository
  import opened Service
  import opened ServiceProperties

  /** As written: after one successful update, a second update of the same user throws. */
  lemma UpdateUserTwiceFails(s: Store, k: Id, first: UpdateUserRequest, second: UpdateUserRequest)
    requires WellFormed(s) && k in s.rows && s.rows[k].active == Some(true)
    ensures UpdateUser(s, s.rows[k].mail, first).Success?
    ensures UpdateUser(UpdateUser(s, s.rows[k].mail, first).value.store, s.rows[k].mail, second)
            == Failure(NullActive)
  {
    UpdateUserOutcome(s, k, first);
    var s' := UpdateUser(s, s.rows[k].mail, first).value.store;
    assert WellFormed(s');
    UpdateUserOutcome(s', k, second);
  }

  /** The concrete input: create a user, update it, update it again. */
  lemma UpdateUserTwiceFailsExample()
    ensures
      var created := CreateUser(Empty, CreateUserRequest("a@x.com", "A", "B", ""));
      && created.Success?
      && UpdateUser(created.value.store, "a@x.com", UpdateUserRequest("A2", "B2", "")).Success?
      && UpdateUser(UpdateUser(created.value.store, "a@x.com", UpdateUserRequest("A2", "B2", "")).value.store,
                    "a@x.com", UpdateUserRequest("A3", "B3", "")) == Failure(NullActive)
  {
    EmptyWellFormed();
    var s := CreateUser(Empty, CreateUserRequest("a@x.com", "A", "B", "")).value.store;
    assert s.rows[1].mail == "a@x.com";
    UpdateUserTwiceFails(s, 1, UpdateUserRequest("A2", "B2", ""), UpdateUserRequest("A3", "B3", ""));
  }

  /** Corrected `updateUser`: identical, except the old flag is passed on to the replacement. */
  function UpdateUserKeepingActive(s: Store, mail: string, request: UpdateUserRequest): (r: Result<Reply<UserDto>, Error>)
    ensures r == Failure(NotFound) <==> !HasMail(s, mail)
    ensures r.Success? ==> r.value.value == UserDto(mail, request.firstName, request.lastName, request.middleName)
    ensures r.Success? && WellFormed(s) ==> WellFormed(r.value.store)
  {
    var found :- FindUserByMail(s, mail);
    if found.active.None? then
      Failure(NullActive)
    else if !found.active.value then
      Failure(NotActive)
    else
      var updated := WithAllFields(found.id, found.mail, request.firstName, request.lastName,
                                   request.middleName, found.active);
      var saved :- Save(s, updated);
      Success(Reply(saved.0, Convert(saved.1)))
  }

  /**
   * The intended effect: on an active row only the three names change; id,
   * mail and the flag are kept, and nothing else in the table changes.
   */
  lemma UpdateUserKeepingActiveOutcome(s: Store, k: Id, request: UpdateUserRequest)
    requires WellFormed(s) && k in s.rows && s.rows[k].active == Some(true)
    ensures UpdateUserKeepingActive(s, s.rows[k].mail, request) == Success(Reply(
      Store(s.rows[k := s.rows[k].(firstName := request.firstName, lastName := request.lastName,
                                   middleName := request.middleName)], s.nextId),
      UserDto(s.rows[k].mail, request.firstName, request.lastName, request.middleName)))
  {
    FindUserByMailFinds(s, k);
    var rec := s.rows[k];
    var updated := rec.(firstName := request.firstName, lastName := request.lastName,
                        middleName := request.middleName);
    assert SaveKey(s, updated) == k;
    var saved := Save(s, updated);
    assert saved.Success?;
    assert saved.value.0.rows == s.rows[k := updated];
  }

  /** With the correction a user can be updated any number of times; the second update succeeds. */
  lemma UpdateUserKeepingActiveTwiceSucceeds(s: Store, k: Id, first: UpdateUserRequest, second: UpdateUserRequest)
    requires WellFormed(s) && k in s.rows && s.rows[k].active == Some(true)
    ensures UpdateUserKeepingActive(s, s.rows[k].mail, first).Success?
    ensures UpdateUserKeepingActive(UpdateUserKeepingActive(s, s.rows[k].mail, first).value.store,
                                    s.rows[k].mail, second).Success?
  {
    UpdateUserKeepingActiveOutcome(s, k, first);
    var s' := UpdateUserKeepingActive(s, s.rows[k].mail, first).value.store;
    UpdateUserKeepingActiveOutcome(s', k, second);
  }
}

=== FILE: user_service_properties.dfy ===
/**
 * Properties of the service operations over well-formed tables: lookups by
 * a stored mail, the exact effect of update and of the flag changes stated
 * per row, idempotence of the flag operations, the
 * create-then-read round trip, and preservation of the table invariant
 * (ids match keys, mails unique) along any sequence of calls.
 */
module ServiceProperties {
  import opened Wrappers
  import opened Exceptions
  import opened Model
  import opened Dto
  import opened Repository
  import opened Service

  /** In a well-formed table a mail names at most one key. */
  lemma MailNamesOneKey(s: Store, k: Id, j: Id)
    requires WellFormed(s)
    requires k in s.rows && j in s.rows && s.rows[k].mail == s.rows[j].mail
    ensures k == j
  {
  }

  /** The lookup by mail finds exactly the row that has it. */
  lemma FindUserByMailFinds(s: Store, k: Id)
    requires WellFormed(s) && k in s.rows
    ensures FindUserByMail(s, s.rows[k].mail) == Success(s.rows[k])
  {
    var found := FindUserByMail(s, s.rows[k].mail);
    assert found.Success?;
    var j :| j in s.rows && s.rows[j] == found.value;
    MailNamesOneKey(s, k, j);
  }

  /** Reading a stored row by its mail returns its representation and writes nothing. */
  lemma GetUserByMailFinds(s: Store, k: Id)
    requires WellFormed(s) && k in s.rows
    ensures GetUserByMail(s, s.rows[k].mail) == Success(Reply(s, Convert(s.rows[k])))
  {
    FindUserByMailFinds(s, k);
  }

  /**
   * The exact outcome of an update on the row `k` that has the mail: an
   * unset flag throws, a false flag is refused, and a true flag leads to the
   * row being replaced, under the same key, by one with the same id and mail,
   * the request's names and no flag. No other row and not the counter change.
   * This restates, for one chosen row, what `Service.UpdateUser`'s contract
   * says for every row with the mail; later lemmas cite it by that row.
   */
  lemma UpdateUserOutcome(s: Store, k: Id, request: UpdateUserRequest)
    requires WellFormed(s) && k in s.rows
    ensures s.rows[k].active.None? ==> UpdateUser(s, s.rows[k].mail, request) == Failure(NullActive)
    ensures s.rows[k].active == Some(false) ==> UpdateUser(s, s.rows[k].mail, request) == Failure(NotActive)
    ensures s.rows[k].active == Some(true) ==>
      UpdateUser(s, s.rows[k].mail, request) == Success(Reply(
        Store(s.rows[k := UserInformation(Some(k), s.rows[k].mail, request.firstName, request.lastName,
                                          request.middleName, None)], s.nextId),
        UserDto(s.rows[k].mail, request.firstName, request.lastName, request.middleName)))
  {
    FindUserByMailFinds(s, k);
  }

  /**
   * The exact outcome of a flag change on an existing row: the row under
   * `id` differs from the old one only in its flag, which is `isActive`.
   * This restates the corresponding clause of `Service.ChangeActivateUser`'s
   * contract as a lemma the idempotence and restore proofs call.
   */
  lemma ChangeActivateUserOutcome(s: Store, id: Id, isActive: bool)
    requires WellFormed(s) && id in s.rows
    ensures ChangeActivateUser(s, id, isActive) ==
      Success(Reply(Store(s.rows[id := s.rows[id].(active := Some(isActive))], s.nextId), ()))
  {
  }

  /** Changing a flag twice to the same value leaves the same table as changing it once. */
  lemma ChangeActivateUserIdempotent(s: Store, id: Id, isActive: bool)
    requires WellFormed(s)
    ensures ChangeActivateUser(s, id, isActive).Success? ==>
      var s' := ChangeActivateUser(s, id, isActive).value.store;
      ChangeActivateUser(s', id, isActive) == Success(Reply(s', ()))
  {
    if id in s.rows {
      ChangeActivateUserOutcome(s, id, isActive);
      var s' := ChangeActivateUser(s, id, isActive).value.store;
      ChangeActivateUserOutcome(s', id, isActive);
      assert s'.rows[id := s'.rows[id].(active := Some(isActive))] == s'.rows;
    }
  }

  /** `deactivateUser` twice is `deactivateUser` once. */
  lemma DeactivateUserIdempotent(s: Store, id: Id)
    requires WellFormed(s)
    ensures DeactivateUser(s, id).Success? ==>
      DeactivateUser(DeactivateUser(s, id).value.store, id) == DeactivateUser(s, id)
  {
    ChangeActivateUserIdempotent(s, id, false);
  }

  /** `activeUser` twice is `activeUser` once. */
  lemma ActiveUserIdempotent(s: Store, id: Id)
    requires WellFormed(s)
    ensures ActiveUser(s, id).Success? ==>
      ActiveUser(ActiveUser(s, id).value.store, id) == ActiveUser(s, id)
  {
    ChangeActivateUserIdempotent(s, id, true);
  }

  /** Deactivating an active row and activating it again restores the table. */
  lemma DeactivateThenActivateRestores(s: Store, id: Id)
    requires WellFormed(s) && id in s.rows && s.rows[id].active == Some(true)
    ensures ActiveUser(DeactivateUser(s, id).value.store, id) == Success(Reply(s, ()))
  {
    ChangeActivateUserOutcome(s, id, false);
    var s' := DeactivateUser(s, id).value.store;
    ChangeActivateUserOutcome(s', id, true);
    assert s'.rows[id := s'.rows[id].(active := Some(true))] == s.rows;
  }

  /** A created user reads back, by its mail, as the representation of the request. */
  lemma CreateThenGetUserByMail(s: Store, request: CreateUserRequest)
    requires WellFormed(s)
    ensures CreateUser(s, request).Success? ==>
      var s' := CreateUser(s, request).value.store;
      GetUserByMail(s', request.mail) ==
        Success(Reply(s', UserDto(request.mail, request.firstName, request.lastName, request.middleName)))
  {
    if CreateUser(s, request).Success? {
      var s' := CreateUser(s, request).value.store;
      GetUserByMailFinds(s', s.nextId);
    }
  }

  /** After a delete, the id is gone and so is the deleted row's mail. */
  lemma DeleteThenNotFound(s: Store, id: Id)
    requires WellFormed(s) && id in s.rows
    ensures DeleteUser(s, id).Success?
    ensures DeleteUser(DeleteUser(s, id).value.store, id) == Failure(NotFound)
    ensures GetUserByMail(DeleteUser(s, id).value.store, s.rows[id].mail) == Failure(NotFound)
  {
    var s' := DeleteUser(s, id).value.store;
    forall k | k in s'.rows
      ensures s'.rows[k].mail != s.rows[id].mail
    {
      if s'.rows[k].mail == s.rows[id].mail {
        MailNamesOneKey(s, k, id);
      }
    }
  }

  /** One state-changing call of the service, with its arguments. */
  datatype Call =
    | Create(request: CreateUserRequest)
    | Update(mail: string, update: UpdateUserRequest)
    | Deactivate(id: Id)
    | Activate(id: Id)
    | Delete(id: Id)

  /** The table after a call: the new one on success, the old one when the call throws. */
  function StoreAfter<T>(s: Store, r: Result<Reply<T>, Error>): Store
  {
    if r.Success? then r.value.store else s
  }

  function Apply(s: Store, call: Call): Store
  {
    match call
    case Create(request) => StoreAfter(s, CreateUser(s, request))
    case Update(mail, update) => StoreAfter(s, UpdateUser(s, mail, update))
    case Deactivate(id) => StoreAfter(s, DeactivateUser(s, id))
    case Activate(id) => StoreAfter(s, ActiveUser(s, id))
    case Delete(id) => StoreAfter(s, DeleteUser(s, id))
  }

  /** The table after a sequence of calls, one after another. */
  function Run(s: Store, calls: seq<Call>): Store
    decreases |calls|
  {
    if calls == [] then s else Run(Apply(s, calls[0]), calls[1..])
  }

  /** Every call keeps the table well-formed, so ids match keys and mails stay unique. */
  lemma ApplyPreservesWellFormed(s: Store, call: Call)
    requires WellFormed(s)
    ensures WellFormed(Apply(s, call))
  {
  }

  /**
   * Any sequence of calls from an empty table ends in a well-formed table:
   * no sequence of service calls can make two rows share a mail.
   */
  lemma {:induction false} RunPreservesWellFormed(s: Store, calls: seq<Call>)
    requires WellFormed(s)
    ensures WellFormed(Run(s, calls))
    decreases |calls|
  {
    if calls != [] {
      ApplyPreservesWellFormed(s, calls[0]);
      RunPreservesWellFormed(Apply(s, calls[0]), calls[1..]);
    }
  }

  /** Every table the service can produce from an empty one is well-formed. */
  lemma ReachableWellFormed(calls: seq<Call>)
    ensures WellFormed(Run(Empty, calls))
  {
    EmptyWellFormed();
    RunPreservesWellFormed(Empty, calls);
  }
}

=== FILE: wrappers.dfy ===
/**
 * The two shapes a Java call's outcome takes here: a reference that may be
 * null, and a return value that may instead be a thrown exception.
 */
module Wrappers {

  /** A possibly-null reference: `None` is null. */
  datatype Option<+T> = None | Some(value: T)

  /** What a service or repository call gives back: its value, or the exception it throws. */
  datatype Result<+R, +E> = Success(value: R) | Failure(error: E) {
    predicate IsFailure() { Failure? }

    function PropagateFailure<U>(): Result<U, E>
      requires Failure?
    {
      Failure(error)
    }

    function Extract(): R
      requires Success?
    {
      value
    }
  }
}

/** The failures a service call can end with, by kind; messages are not modelled. */
module Exceptions {

  datatype Error =
    | NotFound        // UserNotFoundException, by mail or by id
    | NotActive       // UserIsNotActiveException
    | NullActive      // NullPointerException from unboxing or dereferencing an unset isActive
    | DuplicateMail   // the store's unique constraint on mail rejected a save
    | NonUniqueMail   // findByMail matched more than one row (never in a well-formed store)
}
